=== FILE: README.md ===
# Uptime checker: query endpoint and dashboard time-series pipeline

This project models the read side of an uptime checker. Probes in several countries and
cities measure HTTP latency to a set of domains and store the timestamped measurements
("logs"). The model covers the path from stored logs to the charts that are drawn:

- **Query endpoint** (`/http-logs`, module `Routes`):
  - the `timeRange` tag chooses a lookback window and a table, raw logs or hourly roll-ups;
  - the query keeps the rows inside the window that have a city, and the requested domain when one is given;
  - rows come back in ascending `created_at` order;
  - a domain-filtered result is reshaped into `country -> city -> [log]`;
  - a failed query becomes a server error.
- **Dashboard fetch** (module `Dashboard`):
  - the overview page keeps logs from RU, UA and BY;
  - it groups them by `domain -> city` and drops logs without a domain or a city;
  - it trims every city series of a group to a common time window (module `TimeAlignment`);
  - when "hide unreliable data" is on, it filters every series (module `Reliability`);
  - a failed fetch reports `stale` when the maps its closure captured hold data, and `error` otherwise (see "## Findings").
- **Location grid** (module `LocationGrid`): the reduce that turns a list of locations into countries and their cities.

Modules `Seqs` and `AssocList` hold the shared machinery.

- **Maps:** JavaScript objects keyed by country, city or domain are association lists (`seq<(K, V)>`). Entries keep insertion order, which is how JavaScript orders non-numeric property names.
- **Grouping:** `Group` and `Group2` are a single left fold that appends to lists, one level or two levels deep. The server's reshape, the dashboard's domain grouping and the location grid are all instances of it.
- **Grouping lemmas:** these describe the fold without reference to its steps. The keys are the distinct keys of the input, in order of first appearance. The list under a key is exactly the input elements with that key, in input order. No element is lost or duplicated.

Units:
- Timestamps are integer milliseconds.
- Timing fields are `real`, because JavaScript numbers are not integers.
- Lookback windows are in milliseconds: 3 hours, 1 day, 7 days or 30 days.

The database's ordering is a relation, not a function. `ORDER BY created_at` leaves the order of rows with equal timestamps open. `Routes.IsAnswer` therefore accepts any sorted permutation of the matching rows, and `Routes.Answer` shows that one always exists.

### The isolated-spike branch

The `map` in `processCityLogs` (Dashboard.tsx:175-186) tests for an *isolated* spike: a log whose total time is over 2000 ms while both neighbours are below it (a missing neighbour counts as 0). The block run for such a log is empty, so:

- the `map` returns every log unchanged (`Reliability.MarkSpikes`);
- the `filter` that follows (Dashboard.tsx:187-189) drops every log whose total time is 2000 ms or more, isolated or not. A log at exactly 2000 ms is dropped, because the filter uses `<` even though the spike test uses `>`.

The model follows this code. The rule the empty branch tests for, dropping only isolated spikes and keeping consecutive slow points, is modelled separately as `Reliability.DropIsolatedSpikes`. Two lemmas relate it to the code:
- `Reliability.AsWrittenRefinesIsolatedSpikeRule`: the code's result equals the rule's result with every remaining slow point removed.
- `Reliability.SustainedDegradationIsHidden`: on `[100, 2500, 2500, 100]` the rule keeps all four points, but the dashboard shows two.

## Model

| member | source | states |
|---|---|---|
| Routes.PlanFor | server/routes.js:13-34 | Week and month read the hourly table and everything else reads raw logs. Raw logs are read exactly when the lookback is at most one day. Every lookback is between 3 hours and 30 days. An unknown or missing tag gets 3 hours of raw logs. `Routes.NamedRangePlans` gives the exact window and table of each named tag. |
| Routes.NamedRangePlans | server/routes.js:14-29 | `month` is 30 days and `week` 7 days of hourly roll-ups. `day` is one day and `3hour` three hours of raw logs. No tag is the same as `3hour`. |
| Routes.QueryFor | server/routes.js:42-60 | The query filters by domain exactly when the `domain` parameter is present and non-empty, so an empty string means no filter. It uses the plan of its time range. |
| Routes.AnswerRowsMatch | server/routes.js:42-60 | Every row the database may return comes from the chosen table and meets the WHERE clause: it is inside the window and has a city. It is projected: no domain column when a domain was requested. |
| Routes.IsAnswer | server/routes.js:43-58 | What the database may return for the query: the projected rows of the chosen table that meet the WHERE clause, each as often as stored, in ascending `created_at` order, with ties in any order. An answer has exactly as many rows as there are matching rows. |
| Routes.Answer | server/routes.js:43-58 | An answer always exists. It is sorted by `created_at` and is a permutation of the projected matching rows. |
| Routes.Reshape | server/routes.js:64-76 | Countries are distinct and appear in first-appearance order of the rows' country keys, with NULL keyed `"null"`. Every row lands in exactly one list, so the list lengths sum to the row count. |
| Routes.ReshapeLookup | server/routes.js:66-75 | The list at `[country][city]` is exactly the rows with that country and city, in row order, with the location fields removed. |
| Routes.ReshapeEntry | server/routes.js:66-75 | Every city map has distinct keys. Every list holds only records without a location. Every list is sorted when the rows are. |
| Routes.HandleLogs | server/routes.js:62-83 | A failed query, and only a failed query, gives a server error. Without a domain the rows are sent unchanged. With a domain the response is the reshaped map of those rows, so `Routes.ReshapeLookup` describes every list in it, with distinct countries and every row accounted for. |
| TimeAlignment.Window | client/src/components/Dashboard/Dashboard.tsx:74-90 | There is no window exactly when every series is empty. Otherwise the window spans every series' first and last timestamp. Its start is some series' first timestamp and its end is some series' last timestamp. |
| TimeAlignment.Trim | client/src/components/Dashboard/Dashboard.tsx:73-101 | Cities are kept. With no window the map is returned as it is. Otherwise each series becomes an order-preserving selection of its logs inside the window. Nothing outside is kept. Every copy of every log inside is kept. |
| TimeAlignment.TrimSortedIsIdentity | client/src/components/Dashboard/Dashboard.tsx:73-101 | When every series is sorted by time, trimming changes nothing. |
| TimeAlignment.TrimIdempotent | client/src/components/Dashboard/Dashboard.tsx:73-101 | Trimming a trimmed map changes nothing. |
| TimeAlignment.ClipKeepsWindow | client/src/components/Dashboard/Dashboard.tsx:92-98 | When a map's own window is not inverted (start at most end), clipping to it leaves that window unchanged. |
| TimeAlignment.ClippedInWindow | client/src/components/Dashboard/Dashboard.tsx:94-97 | Every log that survives clipping lies between the bounds, inclusive. |
| TimeAlignment.ClipEmptyWindow | client/src/components/Dashboard/Dashboard.tsx:94-97 | Clipping to bounds with the start after the end leaves every series empty. |
| TimeAlignment.ClipTwice | client/src/components/Dashboard/Dashboard.tsx:93-98 | Clipping twice to the same bounds is clipping once. |
| Reliability.MarkSpikes | client/src/components/Dashboard/Dashboard.tsx:175-186 | The `map` pass returns the series unchanged, because the spike branch is empty. |
| Reliability.ReliableMeans | client/src/components/Dashboard/Dashboard.tsx:187-189 | A log is kept exactly when its total time is missing or below 2000 ms. |
| Reliability.ProcessSeries | client/src/components/Dashboard/Dashboard.tsx:175-189 | The shown series is exactly the reliable logs of the input (total time missing or below 2000 ms, see `Reliability.ReliableMeans`), in input order and each as often as in the input. |
| Reliability.ProcessCityLogs | client/src/components/Dashboard/Dashboard.tsx:171-192 | Every city is kept, in order, and its series is filtered as above. |
| Reliability.ProcessCityLogsIdempotent | client/src/components/Dashboard/Dashboard.tsx:171-192 | Hiding unreliable data twice is hiding it once. |
| Reliability.DropIsolatedSpikes | client/src/components/Dashboard/Dashboard.tsx:176-183 | The rule the empty branch tests for gives an order-preserving selection of the series, shorter than it by exactly the number of isolated spikes. Each log appears in the result exactly as many times as it sits at a position that is not an isolated spike, so every isolated spike is removed even when the same log repeats. |
| Reliability.IsolatedSpikeIsDropped | client/src/components/Dashboard/Dashboard.tsx:176-183 | On `[100, 100, 6000, 100, 100]` the isolated-spike rule drops the spike and keeps the four fast points. |
| Reliability.AsWrittenRefinesIsolatedSpikeRule | client/src/components/Dashboard/Dashboard.tsx:175-189 | The dashboard's result is the isolated-spike rule's result with every remaining slow point removed. It is therefore a subsequence of the rule's result. |
| Reliability.SustainedDegradationIsHidden | client/src/components/Dashboard/Dashboard.tsx:175-189 | On `[100, 2500, 2500, 100]` the isolated-spike rule keeps all four points but the dashboard keeps only the two fast ones. |
| Dashboard.GroupByDomain | client/src/components/Dashboard/Dashboard.tsx:143-164 | Domains are distinct and appear in first-appearance order among the logs from RU, UA or BY that have a non-empty domain and city. Each such log is stored exactly once. |
| Dashboard.GroupByDomainLookup | client/src/components/Dashboard/Dashboard.tsx:143-164 | `[domain][city]` holds exactly the input logs from an allowed country with that domain and city, in input order. |
| Dashboard.GroupByDomainEntry | client/src/components/Dashboard/Dashboard.tsx:148-164 | Every domain's city map has distinct keys. Each list holds exactly the logs shown under its domain and city, and is sorted when the input is. |
| Dashboard.TrimEach | client/src/components/Dashboard/Dashboard.tsx:126-130 | Every country (or, at lines 166-169, every domain) keeps its key and position, and its city map is trimmed to its own window, not to a window shared across countries. |
| Dashboard.Displayed | client/src/components/Dashboard/Dashboard.tsx:194-218 | With the switch off the data is stored unchanged. With it on every key is kept and every city series is the filtered one. |
| Dashboard.DisplayedIdempotent | client/src/components/Dashboard/Dashboard.tsx:194-218 | Applying the switch twice is applying it once. |
| Dashboard.FailureStatus | client/src/components/Dashboard/Dashboard.tsx:220-228 | After a failure the status is `stale` exactly when one of the two maps it is given holds data, and `error` otherwise. |
| Dashboard.Refreshed | client/src/components/Dashboard/Dashboard.tsx:108-219 | After a successful fetch the status is `success`. A domain page stores the trimmed and, if the switch is on, filtered country map, with the keys the server sent, plus the location groups, and touches nothing else. The overview stores the trimmed and filtered grouping of the allowed logs, and touches nothing else. |
| Dashboard.FetchData | client/src/components/Dashboard/Dashboard.tsx:103-232 | The status is `success` exactly when every fetch the page needs succeeds, and then the state is the refreshed one. On failure only the status changes, and it is `stale` exactly when the maps captured by the running closure hold data. It is not based on the maps held now. |
| Dashboard.StaleClosureReportsError | client/src/components/Dashboard/Dashboard.tsx:234-276 | A failed fetch run by the closure of the first render, where both maps are empty, reports `error` while the data loaded since stays on screen. This covers the timer closure and the two fetches started on mount. |
| Dashboard.FetchDataFresh | client/src/components/Dashboard/Dashboard.tsx:220-228 | The corrected fetch: the same success path, and on failure `stale` exactly when the maps held now have data. |
| Dashboard.FailedRefreshKeepsData | client/src/components/Dashboard/Dashboard.tsx:220-228 | With the corrected fetch, a refresh that fails while data is held keeps the data and reports `stale`, never `error`. |
| Dashboard.FreshClosureAgrees | client/src/components/Dashboard/Dashboard.tsx:220-228 | When no other fetch has changed the maps since the closure's render, so that the captured state is the current one, the code as written and the corrected fetch give the same state. |
| LocationGrid.GroupLocations | client/src/components/Dashboard/Dashboard.tsx:378-398 | Countries are distinct, in first-appearance order, and every location contributes exactly one city. |
| LocationGrid.GroupLocationsEntry | client/src/components/Dashboard/Dashboard.tsx:378-398 | Each country's cities are exactly the cities of the locations in that country, in input order. The list is never empty. |
| Pipeline.DomainPageTrimIsIdentity | client/src/components/Dashboard/Dashboard.tsx:126-130 | For any answer the server may give, trimming the reshaped per-domain data changes nothing, because every series arrives sorted. |
| Pipeline.OverviewTrimIsIdentity | client/src/components/Dashboard/Dashboard.tsx:166-169 | For any answer the server may give, trimming the client's domain grouping changes nothing. |

## Findings

| source | as written | input that shows it | evidently intended | confidence | as-written member | corrected member |
|---|---|---|---|---|---|---|
| client/src/components/Dashboard/Dashboard.tsx:221-224 | The `catch` block tests `httpLogs` and `domainLogs` as captured by the running `fetchData` closure. The timer and the visibility handler (lines 258 and 263) keep the closure of the render in which their effect last ran (dependencies at line 276). | `autoRefresh` is restored as on (lines 62-64), so the timer holds the first render's closure, in which both maps are `{}`. The first load succeeds. A later timer refresh fails: the status becomes `error` while the loaded data stays on screen. Also on every mount: lines 237 and 242 both start the first render's closure. When one of them loads data and the other then fails, the failing one reports `error` with the data on screen, even with `autoRefresh` off. | A failed refresh while data is shown reports `stale` | medium; not executed | Dashboard.StaleClosureReportsError | Dashboard.FetchDataFresh |

## Left out

- The probe scheduler, the hourly aggregation and the retention job (`server/index.js` and `server/httpCheck.js`) are not part of this model.
- The `/locations` endpoint is left out. It returns a static configuration object; in the model it is the `locations` parameter of `Dashboard.Server`.
- SQL interval arithmetic and `NOW()` are left out. The current time is a parameter, and intervals are fixed millisecond counts.
- The rows the server returns are modelled as given; the database's storage is not modelled. Row values are typed, so the text-typed numerics that the driver may return are not modelled.
- Date parsing of `created_at` and the `NaN` it can produce are left out: timestamps are integers already.
- JavaScript property order for integer-like keys, and inherited prototype keys such as `"constructor"`, are left out. Keys are plain strings in insertion order.
- React's scheduling of renders and effects, timers, `localStorage`, the `loading` flags and the `loading` status are left out. A fetch is a function of the state its closure captured and the state held when it completes; which closure a trigger runs is an argument.
- Overlapping fetches are left out.
- The sort of the country groups by the position of each country in a fixed list, the `parseInt` of the interval tag, and all rendering and the toggle switch component are left out.
- The SQL interval strings (`"30 day"`, `"3 hour"`, …) are represented by their millisecond lookbacks, not by the strings themselves.

=== FILE: alignment.dfy ===
/** `trimCityLogsByTimeRange`: clip every city's series to the common window that runs from
    the earliest first timestamp to the latest last timestamp over the non-empty series. */
module TimeAlignment {
  import opened Wrappers
  import opened Seqs
  import opened AssocList
  import opened Logs

  function Last(s: seq<Log>): Log
    requires |s| > 0
  {
    s[|s| - 1]
  }

  /** `(minTime, maxTime)` as the loop over the cities computes them, or `None` when they
      keep their initial values `Infinity` / `-Infinity` (no series has an entry). */
  function Window(m: CityLogs): (w: Option<(int, int)>)
    ensures w.None? <==> forall i :: 0 <= i < |m| ==> |m[i].1| == 0
    ensures w.Some? ==> forall i :: 0 <= i < |m| && |m[i].1| > 0 ==>
              w.value.0 <= m[i].1[0].createdAt && Last(m[i].1).createdAt <= w.value.1
    ensures w.Some? ==> exists i :: 0 <= i < |m| && |m[i].1| > 0 && m[i].1[0].createdAt == w.value.0
    ensures w.Some? ==> exists i :: 0 <= i < |m| && |m[i].1| > 0 && Last(m[i].1).createdAt == w.value.1
    decreases |m|
  {
    if |m| == 0 then None
    else
      var rest := Window(m[1..]);
      assert forall i :: 1 <= i < |m| ==> m[i] == m[1..][i - 1];
      var s := m[0].1;
      if |s| == 0 then rest
      else
        match rest
        case None => Some((s[0].createdAt, Last(s).createdAt))
        case Some((lo, hi)) =>
          var lo' := if s[0].createdAt < lo then s[0].createdAt else lo;
          var hi' := if Last(s).createdAt > hi then Last(s).createdAt else hi;
          Some((lo', hi'))
  }

  function InWindow(lo: int, hi: int): Log -> bool {
    (log: Log) => lo <= log.createdAt <= hi
  }

  /** The second loop: every city keeps its key and the logs inside `[lo, hi]`. */
  function Clip(m: CityLogs, lo: int, hi: int): (r: CityLogs)
    ensures |r| == |m|
    ensures forall i :: 0 <= i < |m| ==> r[i] == (m[i].0, Filter(InWindow(lo, hi), m[i].1))
  {
    seq(|m|, i requires 0 <= i < |m| => (m[i].0, Filter(InWindow(lo, hi), m[i].1)))
  }

  /** `r` is `m` with every series cut down to `[lo, hi]`: same cities in the same order, and
      each series an order-preserving selection of exactly the entries inside the bounds,
      with every copy of them and nothing else. */
  ghost predicate TrimmedTo(m: CityLogs, r: CityLogs, lo: int, hi: int) {
    && Keys(r) == Keys(m)
    && (forall i :: 0 <= i < |m| ==> IsSubseq(r[i].1, m[i].1))
    && (forall i, k :: 0 <= i < |m| && 0 <= k < |r[i].1| ==> lo <= r[i].1[k].createdAt <= hi)
    && (forall i, k :: 0 <= i < |m| && 0 <= k < |m[i].1| && lo <= m[i].1[k].createdAt <= hi
                       ==> m[i].1[k] in r[i].1)
    && (forall i, x :: 0 <= i < |m| ==>
          multiset(r[i].1)[x] == if lo <= x.createdAt <= hi then multiset(m[i].1)[x] else 0)
  }

  lemma ClipFacts(m: CityLogs, lo: int, hi: int)
    ensures TrimmedTo(m, Clip(m, lo, hi), lo, hi)
  {
    var r := Clip(m, lo, hi);
    forall i | 0 <= i < |m|
      ensures IsSubseq(r[i].1, m[i].1)
      ensures forall x :: multiset(r[i].1)[x] == if lo <= x.createdAt <= hi then multiset(m[i].1)[x] else 0
    {
      FilterIsSubseq(InWindow(lo, hi), m[i].1);
      FilterMultiset(InWindow(lo, hi), m[i].1);
    }
  }

  /** `trimCityLogsByTimeRange`. */
  function Trim(m: CityLogs): (r: CityLogs)
    ensures Keys(r) == Keys(m)
    ensures Window(m).None? ==> r == m
    ensures Window(m).Some? ==> TrimmedTo(m, r, Window(m).value.0, Window(m).value.1)
  {
    match Window(m)
    case None => m
    case Some((lo, hi)) =>
      ClipFacts(m, lo, hi);
      Clip(m, lo, hi)
  }

  /** A sorted series lies between its first and last entries. */
  lemma SortedBetweenEnds(s: seq<Log>, k: nat)
    requires SortedByTime(s) && k < |s|
    ensures s[0].createdAt <= s[k].createdAt <= Last(s).createdAt
  {
  }

  /** Clipping to bounds that already hold every entry changes nothing. */
  lemma ClipAllInside(m: CityLogs, lo: int, hi: int)
    requires forall i, k :: 0 <= i < |m| && 0 <= k < |m[i].1| ==> lo <= m[i].1[k].createdAt <= hi
    ensures Clip(m, lo, hi) == m
  {
    var r := Clip(m, lo, hi);
    forall i | 0 <= i < |m|
      ensures r[i] == m[i]
    {
      FilterAll(InWindow(lo, hi), m[i].1);
    }
  }

  /** When every series is sorted (as the server returns them) trimming removes nothing. */
  lemma TrimSortedIsIdentity(m: CityLogs)
    requires AllSorted(m)
    ensures Trim(m) == m
  {
    match Window(m)
    case None =>
    case Some((lo, hi)) =>
      forall i, k | 0 <= i < |m| && 0 <= k < |m[i].1|
        ensures lo <= m[i].1[k].createdAt <= hi
      {
        SortedBetweenEnds(m[i].1, k);
      }
      ClipAllInside(m, lo, hi);
  }

  /** An empty window (`lo > hi`) empties every series. */
  lemma ClipEmptyWindow(m: CityLogs, lo: int, hi: int)
    requires lo > hi
    ensures Window(Clip(m, lo, hi)).None?
  {
    var r := Clip(m, lo, hi);
    forall i | 0 <= i < |r|
      ensures |r[i].1| == 0
    {
      FilterNone(InWindow(lo, hi), m[i].1);
    }
  }

  /** Every entry of a clipped series lies in the window. */
  lemma ClippedInWindow(m: CityLogs, lo: int, hi: int, j: nat, k: nat)
    requires j < |m| && k < |Clip(m, lo, hi)[j].1|
    ensures lo <= Clip(m, lo, hi)[j].1[k].createdAt <= hi
  {
    var f := Filter(InWindow(lo, hi), m[j].1);
    assert f[k] in f;
  }

  /** Clipping keeps the first and last entries of a series when they lie in the window. */
  lemma ClipKeepsEnds(m: CityLogs, lo: int, hi: int, a: nat)
    requires a < |m| && |m[a].1| > 0
    ensures var r := Clip(m, lo, hi);
      && (lo <= m[a].1[0].createdAt <= hi ==> |r[a].1| > 0 && r[a].1[0] == m[a].1[0])
      && (lo <= Last(m[a].1).createdAt <= hi ==> |r[a].1| > 0 && Last(r[a].1) == Last(m[a].1))
  {
    if lo <= Last(m[a].1).createdAt <= hi {
      FilterKeepsLast(InWindow(lo, hi), m[a].1);
    }
  }

  /** A first timestamp that no series starts before is the lower end of the window. */
  lemma WindowLow(r: CityLogs, lo: int, a: nat)
    requires a < |r| && |r[a].1| > 0 && r[a].1[0].createdAt == lo
    requires forall i :: 0 <= i < |r| && |r[i].1| > 0 ==> lo <= r[i].1[0].createdAt
    ensures Window(r).Some? && Window(r).value.0 == lo
  {
  }

  /** A last timestamp that no series ends after is the upper end of the window. */
  lemma WindowHigh(r: CityLogs, hi: int, b: nat)
    requires b < |r| && |r[b].1| > 0 && Last(r[b].1).createdAt == hi
    requires forall i :: 0 <= i < |r| && |r[i].1| > 0 ==> Last(r[i].1).createdAt <= hi
    ensures Window(r).Some? && Window(r).value.1 == hi
  {
  }

  /** Clipping to the window of `m` keeps the entries that define it, so the window of the
      result is the same. */
  lemma ClipKeepsWindow(m: CityLogs, lo: int, hi: int)
    requires Window(m) == Some((lo, hi)) && lo <= hi
    ensures Window(Clip(m, lo, hi)) == Some((lo, hi))
  {
    var r := Clip(m, lo, hi);
    var a :| 0 <= a < |m| && |m[a].1| > 0 && m[a].1[0].createdAt == lo;
    var b :| 0 <= b < |m| && |m[b].1| > 0 && Last(m[b].1).createdAt == hi;
    ClipKeepsEnds(m, lo, hi, a);
    ClipKeepsEnds(m, lo, hi, b);
    forall i | 0 <= i < |r| && |r[i].1| > 0
      ensures lo <= r[i].1[0].createdAt && Last(r[i].1).createdAt <= hi
    {
      ClippedInWindow(m, lo, hi, i, 0);
      ClippedInWindow(m, lo, hi, i, |r[i].1| - 1);
    }
    WindowLow(r, lo, a);
    WindowHigh(r, hi, b);
  }

  lemma ClipTwice(m: CityLogs, lo: int, hi: int)
    ensures Clip(Clip(m, lo, hi), lo, hi) == Clip(m, lo, hi)
  {
    forall k | 0 <= k < |m|
      ensures Filter(InWindow(lo, hi), Filter(InWindow(lo, hi), m[k].1)) == Filter(InWindow(lo, hi), m[k].1)
    {
      FilterIdempotent(InWindow(lo, hi), m[k].1);
    }
  }

  /** Trimming twice is trimming once, whether or not the series are sorted. */
  lemma TrimIdempotent(m: CityLogs)
    ensures Trim(Trim(m)) == Trim(m)
  {
    match Window(m)
    case None =>
    case Some((lo, hi)) =>
      if lo > hi {
        ClipEmptyWindow(m, lo, hi);
      } else {
        ClipKeepsWindow(m, lo, hi);
        ClipTwice(m, lo, hi);
      }
  }
}

=== FILE: assoc.dfy ===
/** Insertion-ordered maps as association lists. A JavaScript object whose keys are not
    integer-like enumerates its keys in insertion order, and that order is visible on the
    dashboard (the order of charts and legend entries), so the model keeps it. The
    grouping idiom the source repeats — create the bucket if missing, then push — is
    defined here once as `Push` / `Push2` and folded over a sequence by `Group` / `Group2`. */
module AssocList {
  import opened Seqs

  type AList<K, V> = seq<(K, V)>

  function Keys<K, V>(m: AList<K, V>): (r: seq<K>)
    ensures |r| == |m|
    ensures forall i :: 0 <= i < |m| ==> r[i] == m[i].0
  {
    seq(|m|, i requires 0 <= i < |m| => m[i].0)
  }

  predicate DistinctKeys<K(==), V>(m: AList<K, V>) {
    Distinct(Keys(m))
  }

  /** The value of the first entry with key `k`, or `absent` (what `obj[k] || absent` reads). */
  function Lookup<K(==), V>(m: AList<K, V>, k: K, absent: V): V
    decreases |m|
  {
    if |m| == 0 then absent
    else if m[0].0 == k then m[0].1
    else Lookup(m[1..], k, absent)
  }

  /** `obj[k] = f(obj[k] || absent)`: updates the entry in place when the key exists, and
      otherwise appends a new entry at the end. */
  function Upsert<K(==), V>(m: AList<K, V>, k: K, absent: V, f: V -> V): (r: AList<K, V>)
    ensures Keys(r) == if k in Keys(m) then Keys(m) else Keys(m) + [k]
    decreases |m|
  {
    if |m| == 0 then [(k, f(absent))]
    else
      assert m == [m[0]] + m[1..];
      KeysCons(m[0], m[1..]);
      if m[0].0 == k then
        KeysCons((k, f(m[0].1)), m[1..]);
        [(k, f(m[0].1))] + m[1..]
      else
        var rest := Upsert(m[1..], k, absent, f);
        KeysCons(m[0], rest);
        [m[0]] + rest
  }

  lemma KeysCons<K, V>(e: (K, V), m: AList<K, V>)
    ensures Keys([e] + m) == [e.0] + Keys(m)
  {
  }

  /** After an upsert at `k`, `k` holds `f` of its old value and every other key is unchanged. */
  lemma {:induction false} LookupUpsert<K, V>(m: AList<K, V>, k: K, absent: V, f: V -> V, k': K)
    ensures Lookup(Upsert(m, k, absent, f), k', absent)
         == if k' == k then f(Lookup(m, k, absent)) else Lookup(m, k', absent)
    decreases |m|
  {
    if |m| > 0 && m[0].0 != k {
      LookupUpsert(m[1..], k, absent, f, k');
      assert ([m[0]] + Upsert(m[1..], k, absent, f))[1..] == Upsert(m[1..], k, absent, f);
    } else if |m| > 0 {
      assert ([(k, f(m[0].1))] + m[1..])[1..] == m[1..];
    }
  }

  /** With distinct keys, looking up the key of an entry finds that entry's value. */
  lemma {:induction false} LookupAt<K, V>(m: AList<K, V>, i: nat, absent: V)
    requires DistinctKeys(m) && i < |m|
    ensures Lookup(m, m[i].0, absent) == m[i].1
    decreases i
  {
    if i > 0 {
      assert Keys(m)[0] != Keys(m)[i];
      assert Keys(m[1..]) == Keys(m)[1..];
      LookupAt(m[1..], i - 1, absent);
    }
  }

  // ---------------------------------------------------------------------------------
  // One level of grouping: key -> list

  function Append<V>(v: V): seq<V> -> seq<V> {
    s => s + [v]
  }

  /** `(obj[k] ||= []).push(v)`. */
  function Push<K(==), V>(m: AList<K, seq<V>>, k: K, v: V): AList<K, seq<V>> {
    Upsert(m, k, [], Append(v))
  }

  /** Number of values stored over all keys. */
  function Total<K, V>(m: AList<K, seq<V>>): nat
    decreases |m|
  {
    if |m| == 0 then 0 else |m[0].1| + Total(m[1..])
  }

  lemma {:induction false} TotalPush<K, V>(m: AList<K, seq<V>>, k: K, v: V)
    ensures Total(Push(m, k, v)) == Total(m) + 1
    decreases |m|
  {
    if |m| > 0 && m[0].0 != k {
      TotalPush(m[1..], k, v);
      assert Push(m, k, v) == [m[0]] + Push(m[1..], k, v);
      assert ([m[0]] + Push(m[1..], k, v))[1..] == Push(m[1..], k, v);
    } else if |m| > 0 {
      assert Push(m, k, v)[1..] == m[1..];
    }
  }

  function KeyIs<T, K(==)>(key: T -> K, k: K): T -> bool {
    x => key(x) == k
  }

  lemma KeyIsApply<T, K>(key: T -> K, k: K, x: T)
    ensures KeyIs(key, k)(x) == (key(x) == k)
  {
  }

  /** Left fold of `Push` over `xs`: `xs.reduce((acc, x) => push(acc, key(x), val(x)), {})`. */
  function Group<T, K(==), V>(xs: seq<T>, key: T -> K, val: T -> V): AList<K, seq<V>>
    decreases |xs|
  {
    if |xs| == 0 then []
    else Push(Group(xs[..|xs| - 1], key, val), key(xs[|xs| - 1]), val(xs[|xs| - 1]))
  }

  lemma LookupPush<K, V>(m: AList<K, seq<V>>, k: K, v: V, k': K)
    ensures Lookup(Push(m, k, v), k', []) == Lookup(m, k', []) + (if k' == k then [v] else [])
  {
    LookupUpsert(m, k, [], Append(v), k');
  }

  /** The list stored under `k` is exactly the values of the elements with that key, in
      input order. */
  lemma LookupStep<T, K, V>(g: AList<K, seq<V>>, xs: seq<T>, key: T -> K, val: T -> V, k: K)
    requires |xs| > 0
    requires Lookup(g, k, []) == MapSeq(val, Filter(KeyIs(key, k), xs[..|xs| - 1]))
    ensures Lookup(Push(g, key(xs[|xs| - 1]), val(xs[|xs| - 1])), k, [])
         == MapSeq(val, Filter(KeyIs(key, k), xs))
  {
    var ys := xs[..|xs| - 1];
    var x := xs[|xs| - 1];
    assert xs == ys + [x];
    LookupPush(g, key(x), val(x), k);
    KeyIsApply(key, k, x);
    FilterMapSnoc(KeyIs(key, k), val, ys, x);
  }

  lemma {:induction false} GroupLookup<T, K, V>(xs: seq<T>, key: T -> K, val: T -> V, k: K)
    ensures Lookup(Group(xs, key, val), k, []) == MapSeq(val, Filter(KeyIs(key, k), xs))
    decreases |xs|
  {
    if |xs| > 0 {
      GroupLookup(xs[..|xs| - 1], key, val, k);
      LookupStep(Group(xs[..|xs| - 1], key, val), xs, key, val, k);
    }
  }

  /** Keys appear once each, in order of first appearance in the input. */
  lemma {:induction false} GroupKeys<T, K, V>(xs: seq<T>, key: T -> K, val: T -> V)
    ensures Keys(Group(xs, key, val)) == Dedup(MapSeq(key, xs))
    decreases |xs|
  {
    if |xs| > 0 {
      var n := |xs| - 1;
      GroupKeys(xs[..n], key, val);
      assert MapSeq(key, xs)[..n] == MapSeq(key, xs[..n]);
    }
  }

  lemma {:induction false} GroupTotal<T, K, V>(xs: seq<T>, key: T -> K, val: T -> V)
    ensures Total(Group(xs, key, val)) == |xs|
    decreases |xs|
  {
    if |xs| > 0 {
      var n := |xs| - 1;
      GroupTotal(xs[..n], key, val);
      TotalPush(Group(xs[..n], key, val), key(xs[n]), val(xs[n]));
    }
  }

  // ---------------------------------------------------------------------------------
  // Two levels of grouping: outer key -> inner key -> list

  function PushInner<K2(==), V>(k2: K2, v: V): AList<K2, seq<V>> -> AList<K2, seq<V>> {
    inner => Push(inner, k2, v)
  }

  /** `(obj[k1] ||= {}); (obj[k1][k2] ||= []).push(v)`. */
  function Push2<K1(==), K2(==), V>(n: AList<K1, AList<K2, seq<V>>>, k1: K1, k2: K2, v: V)
    : AList<K1, AList<K2, seq<V>>>
  {
    Upsert(n, k1, [], PushInner(k2, v))
  }

  function Total2<K1, K2, V>(n: AList<K1, AList<K2, seq<V>>>): nat
    decreases |n|
  {
    if |n| == 0 then 0 else Total(n[0].1) + Total2(n[1..])
  }

  lemma {:induction false} Total2Push2<K1, K2, V>(n: AList<K1, AList<K2, seq<V>>>, k1: K1, k2: K2, v: V)
    ensures Total2(Push2(n, k1, k2, v)) == Total2(n) + 1
    decreases |n|
  {
    if |n| == 0 {
      TotalPush([], k2, v);
    } else if n[0].0 != k1 {
      Total2Push2(n[1..], k1, k2, v);
      assert Push2(n, k1, k2, v) == [n[0]] + Push2(n[1..], k1, k2, v);
      assert ([n[0]] + Push2(n[1..], k1, k2, v))[1..] == Push2(n[1..], k1, k2, v);
    } else {
      TotalPush(n[0].1, k2, v);
      assert Push2(n, k1, k2, v)[1..] == n[1..];
    }
  }

  function KeysAre<T, K1(==), K2(==)>(k1: T -> K1, k2: T -> K2, a: K1, b: K2): T -> bool {
    x => k1(x) == a && k2(x) == b
  }

  lemma KeysAreApply<T, K1, K2>(k1: T -> K1, k2: T -> K2, a: K1, b: K2, x: T)
    ensures KeysAre(k1, k2, a, b)(x) == (k1(x) == a && k2(x) == b)
  {
  }

  /** Left fold of `Push2` over `xs`. */
  function Group2<T, K1(==), K2(==), V>(xs: seq<T>, k1: T -> K1, k2: T -> K2, val: T -> V)
    : AList<K1, AList<K2, seq<V>>>
    decreases |xs|
  {
    if |xs| == 0 then []
    else
      var x := xs[|xs| - 1];
      Push2(Group2(xs[..|xs| - 1], k1, k2, val), k1(x), k2(x), val(x))
  }

  /** The list at `[a][b]` is exactly the values of the elements keyed `(a, b)`, in input order. */
  lemma LookupPush2<K1, K2, V>(n: AList<K1, AList<K2, seq<V>>>, k1: K1, k2: K2, v: V, a: K1, b: K2)
    ensures Lookup(Lookup(Push2(n, k1, k2, v), a, []), b, [])
         == Lookup(Lookup(n, a, []), b, []) + (if k1 == a && k2 == b then [v] else [])
  {
    LookupUpsert(n, k1, [], PushInner(k2, v), a);
    if k1 == a {
      LookupPush(Lookup(n, a, []), k2, v, b);
    }
  }

  lemma LookupStep2<T, K1, K2, V>(
    g: AList<K1, AList<K2, seq<V>>>, xs: seq<T>, k1: T -> K1, k2: T -> K2, val: T -> V, a: K1, b: K2)
    requires |xs| > 0
    requires Lookup(Lookup(g, a, []), b, []) == MapSeq(val, Filter(KeysAre(k1, k2, a, b), xs[..|xs| - 1]))
    ensures var x := xs[|xs| - 1];
      Lookup(Lookup(Push2(g, k1(x), k2(x), val(x)), a, []), b, [])
      == MapSeq(val, Filter(KeysAre(k1, k2, a, b), xs))
  {
    var ys := xs[..|xs| - 1];
    var x := xs[|xs| - 1];
    assert xs == ys + [x];
    LookupPush2(g, k1(x), k2(x), val(x), a, b);
    KeysAreApply(k1, k2, a, b, x);
    FilterMapSnoc(KeysAre(k1, k2, a, b), val, ys, x);
  }

  lemma {:induction false} Group2Lookup<T, K1, K2, V>(
    xs: seq<T>, k1: T -> K1, k2: T -> K2, val: T -> V, a: K1, b: K2)
    ensures Lookup(Lookup(Group2(xs, k1, k2, val), a, []), b, [])
         == MapSeq(val, Filter(KeysAre(k1, k2, a, b), xs))
    decreases |xs|
  {
    if |xs| > 0 {
      Group2Lookup(xs[..|xs| - 1], k1, k2, val, a, b);
      LookupStep2(Group2(xs[..|xs| - 1], k1, k2, val), xs, k1, k2, val, a, b);
    }
  }

  /** Outer keys appear once each, in order of first appearance of the outer key. */
  lemma {:induction false} Group2Keys<T, K1, K2, V>(xs: seq<T>, k1: T -> K1, k2: T -> K2, val: T -> V)
    ensures Keys(Group2(xs, k1, k2, val)) == Dedup(MapSeq(k1, xs))
    decreases |xs|
  {
    if |xs| > 0 {
      var n := |xs| - 1;
      Group2Keys(xs[..n], k1, k2, val);
      assert MapSeq(k1, xs)[..n] == MapSeq(k1, xs[..n]);
    }
  }

  lemma KeysLookupPush2<K1, K2, V>(n: AList<K1, AList<K2, seq<V>>>, k1: K1, k2: K2, v: V, a: K1)
    ensures var inner := Lookup(n, a, []);
      Keys(Lookup(Push2(n, k1, k2, v), a, [])) ==
        if k1 != a || k2 in Keys(inner) then Keys(inner) else Keys(inner) + [k2]
  {
    LookupUpsert(n, k1, [], PushInner(k2, v), a);
  }

  lemma InnerKeysStep<T, K1, K2, V>(
    g: AList<K1, AList<K2, seq<V>>>, xs: seq<T>, k1: T -> K1, k2: T -> K2, val: T -> V, a: K1)
    requires |xs| > 0
    requires Keys(Lookup(g, a, [])) == Dedup(MapSeq(k2, Filter(KeyIs(k1, a), xs[..|xs| - 1])))
    ensures var x := xs[|xs| - 1];
      Keys(Lookup(Push2(g, k1(x), k2(x), val(x)), a, []))
      == Dedup(MapSeq(k2, Filter(KeyIs(k1, a), xs)))
  {
    var ys := xs[..|xs| - 1];
    var x := xs[|xs| - 1];
    assert xs == ys + [x];
    KeysLookupPush2(g, k1(x), k2(x), val(x), a);
    KeyIsApply(k1, a, x);
    DedupMapFilterSnoc(KeyIs(k1, a), k2, ys, x);
  }

  /** Under outer key `a`, the inner keys are those of the elements keyed `a`, each once,
      in order of first appearance. */
  lemma {:induction false} Group2InnerKeys<T, K1, K2, V>(
    xs: seq<T>, k1: T -> K1, k2: T -> K2, val: T -> V, a: K1)
    ensures Keys(Lookup(Group2(xs, k1, k2, val), a, [])) == Dedup(MapSeq(k2, Filter(KeyIs(k1, a), xs)))
    decreases |xs|
  {
    if |xs| > 0 {
      Group2InnerKeys(xs[..|xs| - 1], k1, k2, val, a);
      InnerKeysStep(Group2(xs[..|xs| - 1], k1, k2, val), xs, k1, k2, val, a);
    }
  }

  lemma {:induction false} Group2Total<T, K1, K2, V>(xs: seq<T>, k1: T -> K1, k2: T -> K2, val: T -> V)
    ensures Total2(Group2(xs, k1, k2, val)) == |xs|
    decreases |xs|
  {
    if |xs| > 0 {
      var n := |xs| - 1;
      Group2Total(xs[..n], k1, k2, val);
      Total2Push2(Group2(xs[..n], k1, k2, val), k1(xs[n]), k2(xs[n]), val(xs[n]));
    }
  }

  /** Entry-wise reading of `GroupLookup`: the `i`-th group holds exactly its key's values. */
  lemma GroupEntry<T, K, V>(xs: seq<T>, key: T -> K, val: T -> V, i: nat)
    requires i < |Group(xs, key, val)|
    ensures DistinctKeys(Group(xs, key, val))
    ensures var g := Group(xs, key, val);
      g[i].1 == MapSeq(val, Filter(KeyIs(key, g[i].0), xs))
  {
    var g := Group(xs, key, val);
    GroupKeys(xs, key, val);
    LookupAt(g, i, []);
    GroupLookup(xs, key, val, g[i].0);
  }

  /** Entry-wise reading of `Group2Lookup`: inner maps have distinct keys, and the list at
      position `(i, j)` holds exactly the values keyed by that entry's two keys. */
  lemma Group2Entry<T, K1, K2, V>(xs: seq<T>, k1: T -> K1, k2: T -> K2, val: T -> V, i: nat, j: nat)
    requires i < |Group2(xs, k1, k2, val)|
    ensures DistinctKeys(Group2(xs, k1, k2, val))
    ensures DistinctKeys(Group2(xs, k1, k2, val)[i].1)
    ensures var g := Group2(xs, k1, k2, val);
      j < |g[i].1| ==>
        g[i].1[j].1 == MapSeq(val, Filter(KeysAre(k1, k2, g[i].0, g[i].1[j].0), xs))
  {
    var g := Group2(xs, k1, k2, val);
    Group2Keys(xs, k1, k2, val);
    LookupAt(g, i, []);
    Group2InnerKeys(xs, k1, k2, val, g[i].0);
    if j < |g[i].1| {
      LookupAt(g[i].1, j, []);
      Group2Lookup(xs, k1, k2, val, g[i].0, g[i].1[j].0);
    }
  }
}

=== FILE: dashboard.dfy ===
/** `fetchData` of the dashboard page: the overview path (all domains, grouped by
    `domain -> city` on the client), the per-domain path (the server's
    `country -> city` map), trimming, the "hide unreliable" switch and the status shown
    after the fetch. React state, effects, timers, `localStorage` and rendering are not
    modelled: the state a fetch reads is a parameter and the state it leaves is its result. */
module Dashboard {
  import opened Wrappers
  import opened Seqs
  import opened AssocList
  import opened Logs
  import opened TimeAlignment
  import opened Reliability

  const AllowedCountries: seq<string> := ["RU", "UA", "BY"]

  /** `log.country && allowedCountries.includes(log.country)`. */
  predicate InAllowedCountry(log: Log) {
    log.country.Some? && log.country.value in AllowedCountries
  }

  /** `log.domain && log.city`: both present and non-empty (an empty string is falsy). */
  predicate HasDomainAndCity(log: Log) {
    && log.domain.Some? && log.domain.value != ""
    && log.city.Some? && log.city.value != ""
  }

  function DomainKey(log: Log): string {
    log.domain.GetOr("")
  }

  function CityName(log: Log): string {
    log.city.GetOr("")
  }

  /** The reduce pushes the whole log, location fields included. */
  function WholeLog(log: Log): Log {
    log
  }

  /** The logs the overview groups: allowed countries first (`filteredData`), then the ones
      the reduce does not skip. Skipping inside a reduce is filtering before it. */
  function OverviewLogs(data: seq<Log>): seq<Log> {
    Filter(HasDomainAndCity, Filter(InAllowedCountry, data))
  }

  /** `rawGroupedByDomain`. */
  function GroupByDomain(data: seq<Log>): (n: NestedLogs)
    ensures DistinctKeys(n)
    ensures Keys(n) == Dedup(MapSeq(DomainKey, OverviewLogs(data)))
    ensures Total2(n) == |OverviewLogs(data)|
  {
    Group2Keys(OverviewLogs(data), DomainKey, CityName, WholeLog);
    Group2Total(OverviewLogs(data), DomainKey, CityName, WholeLog);
    Group2(OverviewLogs(data), DomainKey, CityName, WholeLog)
  }

  /** A log the overview shows under `[domain][city]`. */
  function ShownUnder(domain: string, city: string): Log -> bool {
    log => InAllowedCountry(log) && HasDomainAndCity(log)
           && log.domain == Some(domain) && log.city == Some(city)
  }

  function AllowedAndComplete(): Log -> bool {
    log => InAllowedCountry(log) && HasDomainAndCity(log)
  }

  lemma MapWholeLog(s: seq<Log>)
    ensures MapSeq(WholeLog, s) == s
  {
  }

  /** `[domain][city]` holds exactly the input logs from RU, UA or BY with that domain and
      city, each once, in input order. */
  lemma GroupByDomainLookup(data: seq<Log>, domain: string, city: string)
    ensures Lookup(Lookup(GroupByDomain(data), domain, []), city, []) == Filter(ShownUnder(domain, city), data)
  {
    var kept := OverviewLogs(data);
    Group2Lookup(kept, DomainKey, CityName, WholeLog, domain, city);
    MapWholeLog(Filter(KeysAre(DomainKey, CityName, domain, city), kept));
    FilterFilter(InAllowedCountry, HasDomainAndCity, AllowedAndComplete(), data);
    var both := Filter(AllowedAndComplete(), data);
    forall i | 0 <= i < |data|
      ensures ShownUnder(domain, city)(data[i])
           == (AllowedAndComplete()(data[i]) && KeysAre(DomainKey, CityName, domain, city)(data[i]))
    {
      KeysAreApply(DomainKey, CityName, domain, city, data[i]);
    }
    FilterFilter(AllowedAndComplete(), KeysAre(DomainKey, CityName, domain, city), ShownUnder(domain, city), data);
  }

  /** Entry by entry: city maps have distinct keys, and each list holds exactly the logs
      shown under its domain and city, sorted when the input is. */
  lemma GroupByDomainEntry(data: seq<Log>, i: nat, j: nat)
    requires i < |GroupByDomain(data)|
    ensures DistinctKeys(GroupByDomain(data)[i].1)
    ensures var n := GroupByDomain(data);
      j < |n[i].1| ==>
        && n[i].1[j].1 == Filter(ShownUnder(n[i].0, n[i].1[j].0), data)
        && (SortedByTime(data) ==> SortedByTime(n[i].1[j].1))
  {
    var n := GroupByDomain(data);
    Group2Entry(OverviewLogs(data), DomainKey, CityName, WholeLog, i, j);
    if j < |n[i].1| {
      LookupAt(n, i, []);
      LookupAt(n[i].1, j, []);
      GroupByDomainLookup(data, n[i].0, n[i].1[j].0);
      if SortedByTime(data) {
        FilterKeepsTimeOrder(ShownUnder(n[i].0, n[i].1[j].0), data);
      }
    }
  }

  /** The loops that apply `trimCityLogsByTimeRange` to every country (or domain). */
  function TrimEach(n: NestedLogs): (r: NestedLogs)
    ensures Keys(r) == Keys(n)
    ensures forall i :: 0 <= i < |n| ==> r[i] == (n[i].0, Trim(n[i].1))
  {
    seq(|n|, i requires 0 <= i < |n| => (n[i].0, Trim(n[i].1)))
  }

  /** The `hideUnreliable` dispatch: with the switch on every city map goes through
      `processCityLogs`, with it off the data is stored as it is. */
  function Displayed(hideUnreliable: bool, n: NestedLogs): (r: NestedLogs)
    ensures !hideUnreliable ==> r == n
    ensures Keys(r) == Keys(n)
    ensures hideUnreliable ==> forall i :: 0 <= i < |n| ==>
              && Keys(r[i].1) == Keys(n[i].1)
              && forall j :: 0 <= j < |n[i].1| ==> r[i].1[j].1 == ProcessSeries(n[i].1[j].1)
  {
    if hideUnreliable then seq(|n|, i requires 0 <= i < |n| => (n[i].0, ProcessCityLogs(n[i].1)))
    else n
  }

  lemma DisplayedIdempotent(hideUnreliable: bool, n: NestedLogs)
    ensures Displayed(hideUnreliable, Displayed(hideUnreliable, n)) == Displayed(hideUnreliable, n)
  {
    if hideUnreliable {
      forall i | 0 <= i < |n|
        ensures ProcessCityLogs(ProcessCityLogs(n[i].1)) == ProcessCityLogs(n[i].1)
      {
        ProcessCityLogsIdempotent(n[i].1);
      }
    }
  }

  // ---------------------------------------------------------------------------------
  // One fetch

  datatype Status = Success | Stale | Error

  /** `interval -> [location]` from `/locations`. */
  type LocationGroups = AList<string, seq<Location>>

  /** The component state a fetch reads and writes. */
  datatype View = View(
    httpLogs: NestedLogs,
    domainLogs: NestedLogs,
    locationGroups: LocationGroups,
    status: Status)

  /** A response: `FetchFailed` covers a network error, a status that is not OK and a body
      that is not valid JSON, all of which throw inside `fetchData`. */
  datatype Fetched<T> = FetchFailed | Fetched(body: T)

  /** What the server would answer to each request `fetchData` can send. */
  datatype Server = Server(
    domainLogs: Fetched<NestedLogs>,
    locations: Fetched<LocationGroups>,
    allLogs: Fetched<seq<Log>>)

  /** `if (domain)` on the route parameter. */
  predicate ShowsDomain(domain: Option<string>) {
    domain.Some? && domain.value != ""
  }

  /** The fetches the current page needs all succeeded. */
  predicate FetchSucceeds(domain: Option<string>, server: Server) {
    if ShowsDomain(domain) then server.domainLogs.Fetched? && server.locations.Fetched?
    else server.allLogs.Fetched?
  }

  /** The status chosen in the `catch` block from the two maps it reads. */
  function FailureStatus(view: View): (s: Status)
    ensures s == Stale <==> |view.httpLogs| > 0 || |view.domainLogs| > 0
    ensures s == Stale || s == Error
  {
    if |view.httpLogs| > 0 || |view.domainLogs| > 0 then Stale else Error
  }

  /** The state after the `try` block completes: the new maps and `success`. */
  function Refreshed(current: View, domain: Option<string>, hideUnreliable: bool, server: Server): (r: View)
    requires FetchSucceeds(domain, server)
    ensures r.status == Success
    ensures ShowsDomain(domain) ==>
              && r == current.(httpLogs := r.httpLogs, locationGroups := r.locationGroups, status := Success)
              && r.locationGroups == server.locations.body
              && r.httpLogs == Displayed(hideUnreliable, TrimEach(server.domainLogs.body))
              && Keys(r.httpLogs) == Keys(server.domainLogs.body)
    ensures !ShowsDomain(domain) ==>
              && r == current.(domainLogs := r.domainLogs, status := Success)
              && r.domainLogs == Displayed(hideUnreliable, TrimEach(GroupByDomain(server.allLogs.body)))
              && Keys(r.domainLogs) == Dedup(MapSeq(DomainKey, OverviewLogs(server.allLogs.body)))
  {
    if ShowsDomain(domain) then
      var logsData := TrimEach(server.domainLogs.body);
      current.(locationGroups := server.locations.body,
               httpLogs := Displayed(hideUnreliable, logsData),
               status := Success)
    else
      var domainLogsData := TrimEach(GroupByDomain(server.allLogs.body));
      current.(domainLogs := Displayed(hideUnreliable, domainLogsData),
               status := Success)
  }

  /** `fetchData` as written. The function is a closure over the render that created it:
      the `catch` block tests the maps `captured` at that render, while the setters write
      into the `current` component state. A timer or visibility handler keeps the closure
      of the render in which its effect last ran. */
  function FetchData(captured: View, current: View, domain: Option<string>, hideUnreliable: bool,
                     server: Server): (r: View)
    ensures r.status == Success <==> FetchSucceeds(domain, server)
    ensures FetchSucceeds(domain, server) ==> r == Refreshed(current, domain, hideUnreliable, server)
    ensures !FetchSucceeds(domain, server) ==>
              && r == current.(status := r.status)
              && (r.status == Stale <==> |captured.httpLogs| > 0 || |captured.domainLogs| > 0)
              && (r.status == Stale || r.status == Error)
  {
    if FetchSucceeds(domain, server) then Refreshed(current, domain, hideUnreliable, server)
    else current.(status := FailureStatus(captured))
  }

  /** A periodic refresh armed at the first render (`autoRefresh` restored as on) keeps the
      closure whose maps are both empty: when it fails after a successful load, the page
      reports `error` while the loaded data stays on screen. */
  lemma StaleClosureReportsError(current: View, domain: Option<string>, hideUnreliable: bool, server: Server)
    requires !FetchSucceeds(domain, server)
    requires |current.httpLogs| > 0 || |current.domainLogs| > 0
    ensures var mount := View([], [], [], Success);
      var r := FetchData(mount, current, domain, hideUnreliable, server);
      && r.status == Error
      && r.httpLogs == current.httpLogs && r.domainLogs == current.domainLogs
      && (|r.httpLogs| > 0 || |r.domainLogs| > 0)
  {
  }

  /** `fetchData` with the `catch` block testing the maps held now, which is what a
      `stale` status is for. */
  function FetchDataFresh(current: View, domain: Option<string>, hideUnreliable: bool, server: Server): (r: View)
    ensures r.status == Success <==> FetchSucceeds(domain, server)
    ensures FetchSucceeds(domain, server) ==> r == Refreshed(current, domain, hideUnreliable, server)
    ensures !FetchSucceeds(domain, server) ==>
              && r == current.(status := r.status)
              && (r.status == Stale <==> |current.httpLogs| > 0 || |current.domainLogs| > 0)
  {
    if FetchSucceeds(domain, server) then Refreshed(current, domain, hideUnreliable, server)
    else current.(status := FailureStatus(current))
  }

  /** A refresh that fails while data is held keeps the data and reports `stale`, never
      `error`. */
  lemma FailedRefreshKeepsData(current: View, domain: Option<string>, hideUnreliable: bool, server: Server)
    requires !FetchSucceeds(domain, server)
    requires |current.httpLogs| > 0 || |current.domainLogs| > 0
    ensures var r := FetchDataFresh(current, domain, hideUnreliable, server);
      r.status == Stale && r.httpLogs == current.httpLogs && r.domainLogs == current.domainLogs
  {
  }

  /** When no other fetch has changed the maps since the closure's render, the captured
      state is the current one, and the code as written agrees with the corrected fetch. */
  lemma FreshClosureAgrees(current: View, domain: Option<string>, hideUnreliable: bool, server: Server)
    ensures FetchData(current, current, domain, hideUnreliable, server)
         == FetchDataFresh(current, domain, hideUnreliable, server)
  {
  }
}

=== FILE: locations.dfy ===
/** The reduce on the per-domain page that turns one interval group's locations into
    `{countryCode, cities}` groups, one chart per country. */
module LocationGrid {
  import opened Seqs
  import opened AssocList
  import opened Logs

  function LocCountry(l: Location): string {
    l.country
  }

  function LocCity(l: Location): string {
    l.city
  }

  /** `locations.reduce(...)`: find the country's group or append a new one, then push
      the city. */
  function GroupLocations(locs: seq<Location>): (g: AList<string, seq<string>>)
    ensures DistinctKeys(g)
    ensures Keys(g) == Dedup(MapSeq(LocCountry, locs))
    ensures Total(g) == |locs|
  {
    GroupKeys(locs, LocCountry, LocCity);
    GroupTotal(locs, LocCountry, LocCity);
    Group(locs, LocCountry, LocCity)
  }

  /** Each group lists the cities of its country in input order (repeats included), and
      none is empty. */
  lemma GroupLocationsEntry(locs: seq<Location>, i: nat)
    requires i < |GroupLocations(locs)|
    ensures var g := GroupLocations(locs);
      && g[i].1 == MapSeq(LocCity, Filter(KeyIs(LocCountry, g[i].0), locs))
      && |g[i].1| > 0
  {
    var g := GroupLocations(locs);
    GroupEntry(locs, LocCountry, LocCity, i);
    assert g[i].0 in Keys(g);
    var countries := MapSeq(LocCountry, locs);
    var k :| 0 <= k < |countries| && countries[k] == g[i].0;
    assert KeyIs(LocCountry, g[i].0)(locs[k]);
    assert locs[k] in Filter(KeyIs(LocCountry, g[i].0), locs);
  }
}

=== FILE: logs.dfy ===
/** The measurement record shared by the server and the dashboard, and the nested maps the
    dashboard keeps. Timestamps (`created_at`) are milliseconds since the epoch, as
    `Date.prototype.getTime` returns them; timing fields are JavaScript numbers (`real`). */
module Logs {
  import opened Wrappers
  import opened Seqs
  import opened AssocList

  datatype Timings = Timings(
    statusCode: Option<int>,
    totalTime: Option<real>,
    downloadTime: Option<real>,
    firstByteTime: Option<real>,
    dnsTime: Option<real>,
    tlsTime: Option<real>,
    tcpTime: Option<real>)

  /** One measurement. `domain`, `country` and `city` are optional because the server's
      responses leave some of them out. */
  datatype Log = Log(
    domain: Option<string>,
    country: Option<string>,
    city: Option<string>,
    createdAt: int,
    timings: Timings)

  /** `city -> [log]` */
  type CityLogs = AList<string, seq<Log>>

  /** `country -> city -> [log]` (or `domain -> city -> [log]` on the overview page). */
  type NestedLogs = AList<string, CityLogs>

  /** A vantage point. */
  datatype Location = Location(country: string, city: string)

  /** Ascending by `created_at`, ties allowed. */
  predicate SortedByTime(s: seq<Log>) {
    forall i, j :: 0 <= i < j < |s| ==> s[i].createdAt <= s[j].createdAt
  }

  /** Every series of a city map is sorted. */
  predicate AllSorted(m: CityLogs) {
    forall i :: 0 <= i < |m| ==> SortedByTime(m[i].1)
  }

  lemma SortedHeadBound(s: seq<Log>, x: Log)
    requires SortedByTime(s) && |s| > 0 && x in s
    ensures s[0].createdAt <= x.createdAt
  {
    var k :| 0 <= k < |s| && s[k] == x;
    if k > 0 {
      assert s[0].createdAt <= s[k].createdAt;
    }
  }

  lemma SortedCons(x: Log, rest: seq<Log>)
    requires SortedByTime(rest)
    requires forall j :: 0 <= j < |rest| ==> x.createdAt <= rest[j].createdAt
    ensures SortedByTime([x] + rest)
  {
    var r := [x] + rest;
    forall i, j | 0 <= i < j < |r|
      ensures r[i].createdAt <= r[j].createdAt
    {
      assert r[j] == rest[j - 1];
      if i > 0 {
        assert r[i] == rest[i - 1];
      }
    }
  }

  /** Filtering a sorted series leaves it sorted. */
  lemma {:induction false} FilterKeepsTimeOrder(p: Log -> bool, s: seq<Log>)
    requires SortedByTime(s)
    ensures SortedByTime(Filter(p, s))
    decreases |s|
  {
    if |s| > 0 {
      assert SortedByTime(s[1..]);
      FilterKeepsTimeOrder(p, s[1..]);
      var rest := Filter(p, s[1..]);
      if p(s[0]) {
        forall j | 0 <= j < |rest|
          ensures s[0].createdAt <= rest[j].createdAt
        {
          SortedHeadBound(s, rest[j]);
        }
        SortedCons(s[0], rest);
      }
    }
  }
}

=== FILE: pipeline.dfy ===
/** Properties that connect the server's answer to what the dashboard does with it. */
module Pipeline {
  import opened Logs
  import opened Routes
  import opened TimeAlignment
  import opened Dashboard

  /** The server returns rows in ascending time, so on the per-domain page every city
      series arrives sorted and trimming it changes nothing. */
  lemma DomainPageTrimIsIdentity(q: LogQuery, now: int, db: Database, rows: seq<Log>)
    requires IsAnswer(q, now, db, rows)
    ensures TrimEach(Reshape(rows)) == Reshape(rows)
  {
    var n := Reshape(rows);
    forall i | 0 <= i < |n|
      ensures Trim(n[i].1) == n[i].1
    {
      forall j | 0 <= j < |n[i].1|
        ensures SortedByTime(n[i].1[j].1)
      {
        ReshapeEntry(rows, i, j);
      }
      TrimSortedIsIdentity(n[i].1);
    }
  }

  /** Likewise on the overview page, after the client's own grouping. */
  lemma OverviewTrimIsIdentity(q: LogQuery, now: int, db: Database, rows: seq<Log>)
    requires IsAnswer(q, now, db, rows)
    ensures TrimEach(GroupByDomain(rows)) == GroupByDomain(rows)
  {
    var n := GroupByDomain(rows);
    forall i | 0 <= i < |n|
      ensures Trim(n[i].1) == n[i].1
    {
      forall j | 0 <= j < |n[i].1|
        ensures SortedByTime(n[i].1[j].1)
      {
        GroupByDomainEntry(rows, i, j);
      }
      TrimSortedIsIdentity(n[i].1);
    }
  }
}

=== FILE: reliability.dfy ===
/** `processCityLogs`, the "hide unreliable data" filter, as the dashboard implements it,
    next to the isolated-spike rule that the empty branch of its `map` tests for. */
module Reliability {
  import opened Wrappers
  import opened Seqs
  import opened AssocList
  import opened Logs

  /** Milliseconds of `total_time` from which a measurement counts as unreliable. */
  const Threshold: real := 2000.0

  /** `log?.total_time ?? 0`, for a log that may be missing (`cityLogs[-1]` is undefined). */
  function TotalOrZero(log: Option<Log>): real {
    match log
    case None => 0.0
    case Some(l) => l.timings.totalTime.GetOr(0.0)
  }

  function Previous(logs: seq<Log>, i: nat): Option<Log>
    requires i < |logs|
  {
    if i > 0 then Some(logs[i - 1]) else None
  }

  function Next(logs: seq<Log>, i: nat): Option<Log>
    requires i < |logs|
  {
    if i + 1 < |logs| then Some(logs[i + 1]) else None
  }

  /** The `cityLogs.map` callback at index `i`. The block run for an isolated spike is empty,
      so both branches return the log unchanged. */
  function SpikeStep(logs: seq<Log>, i: nat): Log
    requires i < |logs|
  {
    var log := logs[i];
    if TotalOrZero(Some(log)) > Threshold then
      if TotalOrZero(Previous(logs, i)) < Threshold && TotalOrZero(Next(logs, i)) < Threshold then
        log
      else
        log
    else
      log
  }

  /** The `cityLogs.map(...)` pass: it leaves the series exactly as it was. */
  function MarkSpikes(logs: seq<Log>): (r: seq<Log>)
    ensures r == logs
  {
    seq(|logs|, i requires 0 <= i < |logs| => SpikeStep(logs, i))
  }

  /** `(log.total_time ?? 0) < 2000`. */
  predicate Reliable(log: Log) {
    TotalOrZero(Some(log)) < Threshold
  }

  /** A log is reliable exactly when its `total_time` is missing or below 2000 ms. */
  lemma ReliableMeans(log: Log)
    ensures Reliable(log) <==> log.timings.totalTime.None? || log.timings.totalTime.value < 2000.0
  {
  }

  /** One city's series after `processCityLogs`: exactly the reliable logs, in their original
      order, each as often as in the input. */
  function ProcessSeries(logs: seq<Log>): (r: seq<Log>)
    ensures forall i :: 0 <= i < |r| ==> r[i] in logs && Reliable(r[i])
    ensures forall i :: 0 <= i < |logs| && Reliable(logs[i]) ==> logs[i] in r
    ensures forall x :: multiset(r)[x] == if Reliable(x) then multiset(logs)[x] else 0
    ensures IsSubseq(r, logs)
  {
    FilterIsSubseq(Reliable, logs);
    FilterMultiset(Reliable, logs);
    Filter(Reliable, MarkSpikes(logs))
  }

  /** `processCityLogs`: every city keeps its key and its reliable logs. */
  function ProcessCityLogs(m: CityLogs): (r: CityLogs)
    ensures Keys(r) == Keys(m)
    ensures forall i :: 0 <= i < |m| ==> r[i] == (m[i].0, ProcessSeries(m[i].1))
  {
    seq(|m|, i requires 0 <= i < |m| => (m[i].0, ProcessSeries(m[i].1)))
  }

  /** Hiding unreliable data twice hides nothing more. */
  lemma ProcessCityLogsIdempotent(m: CityLogs)
    ensures ProcessCityLogs(ProcessCityLogs(m)) == ProcessCityLogs(m)
  {
    forall i | 0 <= i < |m|
      ensures ProcessSeries(ProcessSeries(m[i].1)) == ProcessSeries(m[i].1)
    {
      FilterIdempotent(Reliable, m[i].1);
    }
  }

  // ---------------------------------------------------------------------------------
  // The rule the empty branch tests for: drop a point only when it is an isolated spike

  /** Over the threshold while both neighbours (missing ones count as 0) are below it: the
      condition of the empty block. */
  predicate IsolatedSpikeAt(logs: seq<Log>, i: nat)
    requires i < |logs|
  {
    && TotalOrZero(Some(logs[i])) > Threshold
    && TotalOrZero(Previous(logs, i)) < Threshold
    && TotalOrZero(Next(logs, i)) < Threshold
  }

  function DropIsolatedFrom(logs: seq<Log>, i: nat): seq<Log>
    requires i <= |logs|
    decreases |logs| - i
  {
    if i == |logs| then []
    else (if IsolatedSpikeAt(logs, i) then [] else [logs[i]]) + DropIsolatedFrom(logs, i + 1)
  }

  /** The positions, from `i` on, that hold an isolated spike. */
  ghost function SpikesFrom(logs: seq<Log>, i: nat): set<nat>
    requires i <= |logs|
  {
    set k: nat | i <= k < |logs| && IsolatedSpikeAt(logs, k)
  }

  /** The positions, from `i` on, that hold `x` and are not an isolated spike. */
  ghost function KeptFrom(logs: seq<Log>, i: nat, x: Log): set<nat>
    requires i <= |logs|
  {
    set k: nat | i <= k < |logs| && logs[k] == x && !IsolatedSpikeAt(logs, k)
  }

  /** The series with its isolated spikes removed and everything else kept: an
      order-preserving selection that is shorter than the input by exactly the number of
      isolated spikes, and holds each log once for every position where it appears and is
      not an isolated spike. */
  function DropIsolatedSpikes(logs: seq<Log>): (r: seq<Log>)
    ensures IsSubseq(r, logs)
    ensures |r| == |logs| - |SpikesFrom(logs, 0)|
    ensures forall k :: 0 <= k < |r| ==> r[k] in logs
    ensures forall k :: 0 <= k < |logs| && !IsolatedSpikeAt(logs, k) ==> logs[k] in r
    ensures forall x :: multiset(r)[x] == |KeptFrom(logs, 0, x)|
  {
    DropIsolatedFromKeeps(logs, 0);
    forall x ensures multiset(DropIsolatedFrom(logs, 0))[x] == |KeptFrom(logs, 0, x)| {
      DropIsolatedFromCount(logs, 0, x);
    }
    assert logs[0..] == logs;
    DropIsolatedFrom(logs, 0)
  }

  lemma {:induction false} DropIsolatedFromKeeps(logs: seq<Log>, i: nat)
    requires i <= |logs|
    ensures var r := DropIsolatedFrom(logs, i);
      && IsSubseq(r, logs[i..])
      && |r| == |logs| - i - |SpikesFrom(logs, i)|
      && (forall k :: 0 <= k < |r| ==> r[k] in logs)
      && (forall k :: i <= k < |logs| && !IsolatedSpikeAt(logs, k) ==> logs[k] in r)
    decreases |logs| - i
  {
    if i < |logs| {
      DropIsolatedFromKeeps(logs, i + 1);
      var rest := DropIsolatedFrom(logs, i + 1);
      assert logs[i..] == [logs[i]] + logs[i + 1..];
      SpikesFromStep(logs, i);
      if IsolatedSpikeAt(logs, i) {
        assert DropIsolatedFrom(logs, i) == rest;
        assert logs[i..][1..] == logs[i + 1..];
        SubseqSkip(rest, logs[i..]);
      } else {
        assert DropIsolatedFrom(logs, i) == [logs[i]] + rest;
        SubseqKeep(logs[i], rest, logs[i + 1..]);
      }
    } else {
      assert SpikesFrom(logs, i) == {};
    }
  }

  /** Each log occurs in the result once per position from `i` on where it is kept. */
  lemma {:induction false} DropIsolatedFromCount(logs: seq<Log>, i: nat, x: Log)
    requires i <= |logs|
    ensures multiset(DropIsolatedFrom(logs, i))[x] == |KeptFrom(logs, i, x)|
    decreases |logs| - i
  {
    if i < |logs| {
      DropIsolatedFromCount(logs, i + 1, x);
      KeptFromStep(logs, i, x);
      var rest := DropIsolatedFrom(logs, i + 1);
      if IsolatedSpikeAt(logs, i) {
        assert DropIsolatedFrom(logs, i) == rest;
      } else {
        assert DropIsolatedFrom(logs, i) == [logs[i]] + rest;
        assert multiset([logs[i]] + rest) == multiset{logs[i]} + multiset(rest);
      }
    } else {
      assert KeptFrom(logs, i, x) == {};
    }
  }

  lemma KeptFromStep(logs: seq<Log>, i: nat, x: Log)
    requires i < |logs|
    ensures |KeptFrom(logs, i, x)| == |KeptFrom(logs, i + 1, x)|
                                      + if logs[i] == x && !IsolatedSpikeAt(logs, i) then 1 else 0
  {
    if logs[i] == x && !IsolatedSpikeAt(logs, i) {
      assert KeptFrom(logs, i, x) == KeptFrom(logs, i + 1, x) + {i};
      assert i !in KeptFrom(logs, i + 1, x);
    } else {
      assert KeptFrom(logs, i, x) == KeptFrom(logs, i + 1, x);
    }
  }

  lemma SpikesFromStep(logs: seq<Log>, i: nat)
    requires i < |logs|
    ensures |SpikesFrom(logs, i)| == |SpikesFrom(logs, i + 1)| + if IsolatedSpikeAt(logs, i) then 1 else 0
  {
    if IsolatedSpikeAt(logs, i) {
      assert SpikesFrom(logs, i) == SpikesFrom(logs, i + 1) + {i};
      assert i !in SpikesFrom(logs, i + 1);
    } else {
      assert SpikesFrom(logs, i) == SpikesFrom(logs, i + 1);
    }
  }

  /** An isolated spike is dropped: `[100, 100, 6000, 100, 100]` keeps its four fast points. */
  lemma IsolatedSpikeIsDropped()
    ensures var s := [SampleLog(0, 100.0), SampleLog(1, 100.0), SampleLog(2, 6000.0),
                      SampleLog(3, 100.0), SampleLog(4, 100.0)];
      DropIsolatedSpikes(s) == [s[0], s[1], s[3], s[4]]
  {
    var s := [SampleLog(0, 100.0), SampleLog(1, 100.0), SampleLog(2, 6000.0),
              SampleLog(3, 100.0), SampleLog(4, 100.0)];
    assert !IsolatedSpikeAt(s, 4) && !IsolatedSpikeAt(s, 3) && IsolatedSpikeAt(s, 2);
    assert !IsolatedSpikeAt(s, 1) && !IsolatedSpikeAt(s, 0);
    assert DropIsolatedFrom(s, 5) == [];
    assert DropIsolatedFrom(s, 4) == [s[4]];
    assert DropIsolatedFrom(s, 3) == [s[3], s[4]];
    assert DropIsolatedFrom(s, 2) == [s[3], s[4]];
    assert DropIsolatedFrom(s, 1) == [s[1], s[3], s[4]];
    assert DropIsolatedFrom(s, 0) == [s[0], s[1], s[3], s[4]];
  }

  lemma {:induction false} DropIsolatedFromThenFilter(logs: seq<Log>, i: nat)
    requires i <= |logs|
    ensures Filter(Reliable, DropIsolatedFrom(logs, i)) == Filter(Reliable, logs[i..])
    decreases |logs| - i
  {
    if i < |logs| {
      DropIsolatedFromThenFilter(logs, i + 1);
      var head := if IsolatedSpikeAt(logs, i) then [] else [logs[i]];
      FilterAppend(Reliable, head, DropIsolatedFrom(logs, i + 1));
      assert logs[i..] == [logs[i]] + logs[i + 1..];
      FilterAppend(Reliable, [logs[i]], logs[i + 1..]);
      FilterSingleton(Reliable, logs[i]);
      if IsolatedSpikeAt(logs, i) {
        assert Filter(Reliable, head) == [];
      }
    } else {
      assert logs[i..] == [];
    }
  }

  /** What the dashboard shows is the isolated-spike rule's result with every remaining
      slow point removed as well; in particular it is a subsequence of that result. */
  lemma AsWrittenRefinesIsolatedSpikeRule(logs: seq<Log>)
    ensures ProcessSeries(logs) == Filter(Reliable, DropIsolatedSpikes(logs))
    ensures IsSubseq(ProcessSeries(logs), DropIsolatedSpikes(logs))
  {
    DropIsolatedFromThenFilter(logs, 0);
    assert logs[0..] == logs;
    FilterIsSubseq(Reliable, DropIsolatedSpikes(logs));
  }

  function SampleLog(t: int, total: real): Log {
    Log(None, None, None, t, Timings(None, Some(total), None, None, None, None, None))
  }

  /** A sustained degradation `[100, 2500, 2500, 100]`: the isolated-spike rule keeps all
      four points (neither slow point is isolated), the dashboard drops both slow ones. */
  lemma SustainedDegradationIsHidden()
    ensures var s := [SampleLog(0, 100.0), SampleLog(1, 2500.0), SampleLog(2, 2500.0), SampleLog(3, 100.0)];
      && DropIsolatedSpikes(s) == s
      && ProcessSeries(s) == [s[0], s[3]]
  {
    var s := [SampleLog(0, 100.0), SampleLog(1, 2500.0), SampleLog(2, 2500.0), SampleLog(3, 100.0)];
    assert !IsolatedSpikeAt(s, 0) && !IsolatedSpikeAt(s, 1) && !IsolatedSpikeAt(s, 2) && !IsolatedSpikeAt(s, 3);
    NoIsolatedSpikeKeepsAll(s, 0);
    assert s[0..] == s;
    KeepsFastEnds(s[0], s[1], s[2], s[3]);
    assert s == [s[0], s[1], s[2], s[3]];
  }

  /** The dashboard's filter on a four-point series with fast ends and a slow middle. */
  lemma KeepsFastEnds(a: Log, b: Log, c: Log, d: Log)
    requires Reliable(a) && !Reliable(b) && !Reliable(c) && Reliable(d)
    ensures ProcessSeries([a, b, c, d]) == [a, d]
  {
    var s := [a, b, c, d];
    assert s[1..] == [b, c, d] && s[1..][1..] == [c, d] && s[1..][1..][1..] == [d];
    assert s[1..][1..][1..][1..] == [];
    assert Filter(Reliable, [d]) == [d];
    assert Filter(Reliable, [c, d]) == [d];
    assert Filter(Reliable, [b, c, d]) == [d];
    assert Filter(Reliable, s) == [a, d];
  }

  /** With no isolated spike from `i` on, the rule keeps the rest of the series whole. */
  lemma {:induction false} NoIsolatedSpikeKeepsAll(logs: seq<Log>, i: nat)
    requires i <= |logs|
    requires forall k :: i <= k < |logs| ==> !IsolatedSpikeAt(logs, k)
    ensures DropIsolatedFrom(logs, i) == logs[i..]
    decreases |logs| - i
  {
    if i < |logs| {
      NoIsolatedSpikeKeepsAll(logs, i + 1);
      assert logs[i..] == [logs[i]] + logs[i + 1..];
    }
  }
}

=== FILE: routes.dfy ===
/** The `/http-logs` endpoint of the server: choosing the lookback window and table from
    the requested time range, the row selection the SQL query performs, and the reshaping of
    a domain-filtered result into `country -> city -> [log]`. Durations are milliseconds. */
module Routes {
  import opened Wrappers
  import opened Seqs
  import opened AssocList
  import opened Logs

  const Hour: nat := 3_600_000
  const Day: nat := 24 * Hour

  /** `http_logs` holds raw measurements, `http_hourly_logs` the hourly roll-ups. */
  datatype Table = RawLogs | HourlyLogs

  /** How far back to look and which table to read. */
  datatype RangePlan = RangePlan(lookback: nat, table: Table)

  /** The `timeRange` switch. Any tag other than the four known ones, and a missing tag,
      fall back to three hours of raw data. */
  function PlanFor(timeRange: Option<string>): (r: RangePlan)
    ensures r.table == HourlyLogs <==> timeRange == Some("week") || timeRange == Some("month")
    ensures r.table == RawLogs <==> r.lookback <= Day
    ensures 3 * Hour <= r.lookback <= 30 * Day
    ensures timeRange !in {Some("month"), Some("week"), Some("day")} ==> r == RangePlan(3 * Hour, RawLogs)
  {
    match timeRange
    case Some("month") => RangePlan(30 * Day, HourlyLogs)
    case Some("week") => RangePlan(7 * Day, HourlyLogs)
    case Some("day") => RangePlan(Day, RawLogs)
    case Some("3hour") => RangePlan(3 * Hour, RawLogs)
    case _ => RangePlan(3 * Hour, RawLogs)
  }

  /** The four tags the dashboard offers and their windows. */
  lemma NamedRangePlans()
    ensures PlanFor(Some("month")) == RangePlan(30 * Day, HourlyLogs)
    ensures PlanFor(Some("week")) == RangePlan(7 * Day, HourlyLogs)
    ensures PlanFor(Some("day")) == RangePlan(Day, RawLogs)
    ensures PlanFor(Some("3hour")) == RangePlan(3 * Hour, RawLogs)
    ensures PlanFor(None) == PlanFor(Some("3hour"))
  {
  }

  /** The query the handler sends: a plan and, when the request names one, the domain to
      match. */
  datatype LogQuery = LogQuery(plan: RangePlan, domain: Option<string>)

  /** `if (domain)`: an empty `domain` parameter is falsy and means "no filter". */
  function QueryFor(timeRange: Option<string>, domainParam: Option<string>): (q: LogQuery)
    ensures q.plan == PlanFor(timeRange)
    ensures q.domain.Some? <==> domainParam.Some? && domainParam.value != ""
    ensures q.domain.Some? ==> q.domain == domainParam
  {
    LogQuery(PlanFor(timeRange),
             if domainParam.Some? && domainParam.value != "" then domainParam else None)
  }

  /** The `WHERE` clause: inside the lookback window ending at `now`, a known city, and the
      requested domain when there is one (`domain = $2` never matches a NULL domain). */
  predicate Matches(q: LogQuery, now: int, row: Log) {
    && row.createdAt >= now - q.plan.lookback
    && row.city.Some?
    && (q.domain.Some? ==> row.domain == q.domain)
  }

  function Matcher(q: LogQuery, now: int): Log -> bool {
    row => Matches(q, now, row)
  }

  /** The `SELECT` list: the domain column is requested only when no domain is filtered. */
  function Project(q: LogQuery, row: Log): Log {
    if q.domain.Some? then row.(domain := None) else row
  }

  function Projector(q: LogQuery): Log -> Log {
    row => Project(q, row)
  }

  /** The stored rows of both tables. */
  datatype Database = Database(raw: seq<Log>, hourly: seq<Log>)

  function Stored(db: Database, t: Table): seq<Log> {
    match t
    case RawLogs => db.raw
    case HourlyLogs => db.hourly
  }

  /** The projected matching rows, before ordering. */
  function Candidates(q: LogQuery, now: int, db: Database): seq<Log> {
    MapSeq(Projector(q), Filter(Matcher(q, now), Stored(db, q.plan.table)))
  }

  /** What PostgreSQL may return: the candidates in ascending `created_at` order. Rows with
      equal timestamps may come in any order, so this is a relation, not a function. */
  ghost predicate IsAnswer(q: LogQuery, now: int, db: Database, rows: seq<Log>)
    ensures IsAnswer(q, now, db, rows) ==> |rows| == |Candidates(q, now, db)|
  {
    var c := Candidates(q, now, db);
    assert multiset(rows) == multiset(c) ==> |multiset(rows)| == |multiset(c)|;
    SortedByTime(rows) && multiset(rows) == multiset(c)
  }

  /** Every returned row is the projection of a stored row of the chosen table that meets
      the `WHERE` clause. */
  lemma AnswerRowsMatch(q: LogQuery, now: int, db: Database, rows: seq<Log>, i: nat)
    requires IsAnswer(q, now, db, rows) && i < |rows|
    ensures exists row :: row in Stored(db, q.plan.table) && Matches(q, now, row)
                          && rows[i] == Project(q, row)
    ensures rows[i].createdAt >= now - q.plan.lookback && rows[i].city.Some?
    ensures q.domain.Some? ==> rows[i].domain.None?
  {
    var c := Candidates(q, now, db);
    var f := Filter(Matcher(q, now), Stored(db, q.plan.table));
    assert rows[i] in multiset(rows);
    assert rows[i] in c;
    var k :| 0 <= k < |c| && c[k] == rows[i];
    assert f[k] in Stored(db, q.plan.table) && Matches(q, now, f[k]);
  }

  /** Places `x` before the first strictly later entry of a sorted sequence. */
  function InsertByTime(x: Log, s: seq<Log>): (r: seq<Log>)
    requires SortedByTime(s)
    ensures SortedByTime(r)
    ensures multiset(r) == multiset(s) + multiset{x}
    ensures forall i :: 0 <= i < |r| ==> r[i] == x || r[i] in s
    decreases |s|
  {
    if |s| == 0 then [x]
    else if x.createdAt < s[0].createdAt then
      SortedCons(x, s);
      [x] + s
    else
      var rest := InsertByTime(x, s[1..]);
      assert s == [s[0]] + s[1..];
      assert forall j :: 0 <= j < |rest| ==> s[0].createdAt <= rest[j].createdAt by {
        forall j | 0 <= j < |rest|
          ensures s[0].createdAt <= rest[j].createdAt
        {
          if rest[j] != x {
            SortedHeadBound(s, rest[j]);
          }
        }
      }
      SortedCons(s[0], rest);
      [s[0]] + rest
  }

  /** Insertion sort by `created_at`. */
  function SortByTime(s: seq<Log>): (r: seq<Log>)
    ensures SortedByTime(r)
    ensures multiset(r) == multiset(s)
    decreases |s|
  {
    if |s| == 0 then []
    else
      assert s == [s[0]] + s[1..];
      InsertByTime(s[0], SortByTime(s[1..]))
  }

  /** One result the database may return, so `IsAnswer` can always be met. */
  function Answer(q: LogQuery, now: int, db: Database): (rows: seq<Log>)
    ensures IsAnswer(q, now, db, rows)
  {
    SortByTime(Candidates(q, now, db))
  }

  // ---------------------------------------------------------------------------------
  // Reshaping a domain-filtered result

  /** The property name JavaScript uses for a column value: a NULL becomes `"null"`. */
  function KeyOf(o: Option<string>): string {
    match o
    case Some(s) => s
    case None => "null"
  }

  function CountryKey(row: Log): string {
    KeyOf(row.country)
  }

  function CityKey(row: Log): string {
    KeyOf(row.city)
  }

  /** `const { country, city, ...logData } = row`. */
  function StripLocation(row: Log): Log {
    row.(country := None, city := None)
  }

  /** The `for (const row of rows)` loop that fills `logsByCountryCity`. */
  function Reshape(rows: seq<Log>): (n: NestedLogs)
    ensures DistinctKeys(n)
    ensures Keys(n) == Dedup(MapSeq(CountryKey, rows))
    ensures Total2(n) == |rows|
  {
    Group2Keys(rows, CountryKey, CityKey, StripLocation);
    Group2Total(rows, CountryKey, CityKey, StripLocation);
    Group2(rows, CountryKey, CityKey, StripLocation)
  }

  /** The list at `[country][city]` is exactly the rows with that country and city, without
      their location fields, in the order of `rows`. */
  lemma ReshapeLookup(rows: seq<Log>, country: string, city: string)
    ensures Lookup(Lookup(Reshape(rows), country, []), city, [])
         == MapSeq(StripLocation, Filter(KeysAre(CountryKey, CityKey, country, city), rows))
  {
    Group2Lookup(rows, CountryKey, CityKey, StripLocation, country, city);
  }

  /** Entry by entry: every city map has distinct keys, and every stored list holds only
      stripped records and is sorted when `rows` is. */
  lemma ReshapeEntry(rows: seq<Log>, i: nat, j: nat)
    requires i < |Reshape(rows)|
    ensures DistinctKeys(Reshape(rows)[i].1)
    ensures var n := Reshape(rows);
      j < |n[i].1| ==>
        && (forall k :: 0 <= k < |n[i].1[j].1| ==>
              n[i].1[j].1[k].country.None? && n[i].1[j].1[k].city.None?)
        && (SortedByTime(rows) ==> SortedByTime(n[i].1[j].1))
  {
    var n := Reshape(rows);
    Group2Entry(rows, CountryKey, CityKey, StripLocation, i, j);
    if j < |n[i].1| {
      var f := Filter(KeysAre(CountryKey, CityKey, n[i].0, n[i].1[j].0), rows);
      if SortedByTime(rows) {
        FilterKeepsTimeOrder(KeysAre(CountryKey, CityKey, n[i].0, n[i].1[j].0), rows);
      }
      StripKeepsTime(f);
    }
  }

  /** Stripping the location keeps the timestamps, hence the order. */
  lemma StripKeepsTime(s: seq<Log>)
    ensures var t := MapSeq(StripLocation, s);
      && (forall k :: 0 <= k < |t| ==> t[k].country.None? && t[k].city.None?)
      && (SortedByTime(s) ==> SortedByTime(t))
  {
    var t := MapSeq(StripLocation, s);
    assert forall k :: 0 <= k < |t| ==> t[k].createdAt == s[k].createdAt;
  }

  /** Response of the endpoint. */
  datatype Response = ServerError | Flat(rows: seq<Log>) | Nested(logs: NestedLogs)

  /** What `pool.query` produced: a failure (the `catch` path) or the rows. */
  datatype QueryResult = QueryFailed | Rows(rows: seq<Log>)

  /** The handler after the query: a failure becomes a 500, an unfiltered result is sent
      as is, a domain-filtered one is reshaped. */
  function HandleLogs(q: LogQuery, result: QueryResult): (r: Response)
    ensures result.QueryFailed? <==> r.ServerError?
    ensures result.Rows? && q.domain.None? ==> r == Flat(result.rows)
    ensures result.Rows? && q.domain.Some? ==>
              && r == Nested(Reshape(result.rows))
              && DistinctKeys(r.logs) && Total2(r.logs) == |result.rows|
  {
    match result
    case QueryFailed => ServerError
    case Rows(rows) => if q.domain.Some? then Nested(Reshape(rows)) else Flat(rows)
  }
}

=== FILE: seqs.dfy ===
/** Order-preserving operations on sequences: filtering, mapping and first-occurrence
    de-duplication, with the facts the rest of the model relies on. */
module Seqs {

  /** `a` is obtained from `b` by deleting elements, keeping the order of the rest. */
  ghost predicate IsSubseq<T>(a: seq<T>, b: seq<T>)
    decreases |b|
  {
    |a| == 0 ||
    (|b| > 0 && ((a[0] == b[0] && IsSubseq(a[1..], b[1..])) || IsSubseq(a, b[1..])))
  }

  /** Deleting the head of the longer sequence. */
  lemma SubseqSkip<T>(a: seq<T>, b: seq<T>)
    requires |b| > 0 && IsSubseq(a, b[1..])
    ensures IsSubseq(a, b)
  {
  }

  /** Keeping the head of both sequences. */
  lemma SubseqKeep<T>(x: T, a: seq<T>, b: seq<T>)
    requires IsSubseq(a, b)
    ensures IsSubseq([x] + a, [x] + b)
  {
    assert ([x] + a)[1..] == a && ([x] + b)[1..] == b;
  }

  /** No element occurs twice. */
  predicate Distinct<T(==)>(s: seq<T>) {
    forall i, j :: 0 <= i < j < |s| ==> s[i] != s[j]
  }

  /** The elements of `s` that satisfy `p`, in their original order (`Array.prototype.filter`). */
  function Filter<T(==)>(p: T -> bool, s: seq<T>): (r: seq<T>)
    ensures |r| <= |s|
    ensures forall i :: 0 <= i < |r| ==> r[i] in s && p(r[i])
    ensures forall i :: 0 <= i < |s| && p(s[i]) ==> s[i] in r
    decreases |s|
  {
    if |s| == 0 then []
    else if p(s[0]) then [s[0]] + Filter(p, s[1..])
    else Filter(p, s[1..])
  }

  /** `f` applied to every element (`Array.prototype.map`). */
  function MapSeq<T, U>(f: T -> U, s: seq<T>): (r: seq<U>)
    ensures |r| == |s|
    ensures forall i :: 0 <= i < |s| ==> r[i] == f(s[i])
  {
    seq(|s|, i requires 0 <= i < |s| => f(s[i]))
  }

  /** The distinct elements of `s`, each at the position of its first occurrence. */
  function Dedup<T(==)>(s: seq<T>): (r: seq<T>)
    ensures forall i :: 0 <= i < |r| ==> r[i] in s
    ensures forall i :: 0 <= i < |s| ==> s[i] in r
    ensures Distinct(r)
    decreases |s|
  {
    if |s| == 0 then []
    else
      var d := Dedup(s[..|s| - 1]);
      var x := s[|s| - 1];
      assert forall i :: 0 <= i < |s| - 1 ==> s[i] == s[..|s| - 1][i];
      if x in d then d else d + [x]
  }

  /** Filtering only deletes: what is left keeps its order. */
  lemma {:induction false} FilterIsSubseq<T>(p: T -> bool, s: seq<T>)
    ensures IsSubseq(Filter(p, s), s)
    decreases |s|
  {
    if |s| > 0 {
      FilterIsSubseq(p, s[1..]);
      if p(s[0]) {
        assert Filter(p, s)[1..] == Filter(p, s[1..]);
      }
    }
  }

  /** Filtering keeps every copy of a passing element and no copy of a failing one. */
  lemma {:induction false} FilterMultiset<T>(p: T -> bool, s: seq<T>)
    ensures forall x :: multiset(Filter(p, s))[x] == if p(x) then multiset(s)[x] else 0
    decreases |s|
  {
    if |s| > 0 {
      FilterMultiset(p, s[1..]);
      assert s == [s[0]] + s[1..];
      assert multiset(s) == multiset{s[0]} + multiset(s[1..]);
      if p(s[0]) {
        assert multiset(Filter(p, s)) == multiset{s[0]} + multiset(Filter(p, s[1..]));
      }
    }
  }

  /** De-duplicating a sequence extended by one element. */
  lemma DedupSnoc<T>(s: seq<T>, y: T)
    ensures Dedup(s + [y]) == if y in Dedup(s) then Dedup(s) else Dedup(s) + [y]
  {
    assert (s + [y])[..|s|] == s;
  }

  lemma {:induction false} FilterAppend<T>(p: T -> bool, a: seq<T>, b: seq<T>)
    ensures Filter(p, a + b) == Filter(p, a) + Filter(p, b)
    decreases |a|
  {
    if |a| == 0 {
      assert a + b == b;
    } else {
      assert (a + b)[0] == a[0];
      assert (a + b)[1..] == a[1..] + b;
      FilterAppend(p, a[1..], b);
    }
  }

  lemma FilterSingleton<T>(p: T -> bool, x: T)
    ensures Filter(p, [x]) == if p(x) then [x] else []
  {
    assert [x][1..] == [];
  }

  /** Filtering removes nothing exactly when every element passes. */
  lemma {:induction false} FilterAll<T>(p: T -> bool, s: seq<T>)
    ensures (forall i :: 0 <= i < |s| ==> p(s[i])) <==> Filter(p, s) == s
    decreases |s|
  {
    if |s| > 0 {
      FilterAll(p, s[1..]);
      if !p(s[0]) {
        assert |Filter(p, s[1..])| <= |s[1..]| < |s|;
      } else if forall i :: 0 <= i < |s| ==> p(s[i]) {
        assert forall i :: 0 <= i < |s[1..]| ==> p(s[1..][i]);
      } else {
        var i :| 0 <= i < |s| && !p(s[i]);
        assert !p(s[1..][i - 1]);
      }
    }
  }

  /** Filtering removes everything when nothing passes. */
  lemma {:induction false} FilterNone<T>(p: T -> bool, s: seq<T>)
    requires forall i :: 0 <= i < |s| ==> !p(s[i])
    ensures Filter(p, s) == []
    decreases |s|
  {
    if |s| > 0 {
      FilterNone(p, s[1..]);
    }
  }

  /** Filtering an already filtered sequence again changes nothing. */
  lemma FilterIdempotent<T>(p: T -> bool, s: seq<T>)
    ensures Filter(p, Filter(p, s)) == Filter(p, s)
  {
    FilterAll(p, Filter(p, s));
  }

  /** Filtering keeps the last element when it satisfies the predicate. */
  lemma FilterKeepsLast<T>(p: T -> bool, s: seq<T>)
    requires |s| > 0 && p(s[|s| - 1])
    ensures |Filter(p, s)| > 0 && Filter(p, s)[|Filter(p, s)| - 1] == s[|s| - 1]
  {
    var n := |s| - 1;
    assert s == s[..n] + [s[n]];
    FilterAppend(p, s[..n], [s[n]]);
    FilterSingleton(p, s[n]);
  }

  /** Two filters in a row are one filter by the conjunction. */
  lemma {:induction false} FilterFilter<T>(p: T -> bool, q: T -> bool, both: T -> bool, s: seq<T>)
    requires forall i :: 0 <= i < |s| ==> both(s[i]) == (p(s[i]) && q(s[i]))
    ensures Filter(q, Filter(p, s)) == Filter(both, s)
    decreases |s|
  {
    if |s| > 0 {
      assert forall i :: 0 <= i < |s[1..]| ==> s[1..][i] == s[i + 1];
      FilterFilter(p, q, both, s[1..]);
      if p(s[0]) {
        assert Filter(p, s) == [s[0]] + Filter(p, s[1..]);
        assert Filter(p, s)[1..] == Filter(p, s[1..]);
      }
    }
  }

  lemma MapAppend<T, U>(f: T -> U, a: seq<T>, b: seq<T>)
    ensures MapSeq(f, a + b) == MapSeq(f, a) + MapSeq(f, b)
  {
  }

  /** Filtering and mapping a sequence extended by one element. */
  lemma FilterMapSnoc<T, V>(q: T -> bool, val: T -> V, xs: seq<T>, x: T)
    ensures MapSeq(val, Filter(q, xs + [x]))
         == MapSeq(val, Filter(q, xs)) + (if q(x) then [val(x)] else [])
  {
    FilterAppend(q, xs, [x]);
    FilterSingleton(q, x);
    MapAppend(val, Filter(q, xs), Filter(q, [x]));
  }

  /** De-duplicating the mapped, filtered sequence extended by one element. */
  lemma DedupMapFilterSnoc<T, U>(q: T -> bool, f: T -> U, xs: seq<T>, x: T)
    ensures var d := Dedup(MapSeq(f, Filter(q, xs)));
      Dedup(MapSeq(f, Filter(q, xs + [x]))) ==
        if !q(x) || f(x) in d then d else d + [f(x)]
  {
    var before := MapSeq(f, Filter(q, xs));
    var after := MapSeq(f, Filter(q, xs + [x]));
    FilterMapSnoc(q, f, xs, x);
    if q(x) {
      assert after == before + [f(x)];
      DedupSnoc(before, f(x));
    } else {
      assert after == before;
    }
  }
}

=== FILE: wrappers.dfy ===
/** Optional values: a JSON field or query parameter that may be absent (or `null`). */
module Wrappers {

  datatype Option<+T> = None | Some(value: T) {

    /** The wrapped value, or `default` when absent (JavaScript's `x ?? default`). */
    function GetOr(default: T): T {
      match this
      case Some(v) => v
      case None => default
    }
  }
}
